=== FILE: README.md ===
# Input Language Screamer — detection and selection logic in Dafny

Input Language Screamer is a background Windows tool that plays a sound when
the user's keyboard input language changes. This project models its two
pieces of decision logic and proves properties about them.

1. **The language-change detection engine** of `GlobalKeyboardHook` is modelled
   as a pure state machine (`keyboard_hook.dfy`, module `KeyboardHook`). The
   state is the two modifier flags (Left-Alt and Left-Shift held), the
   last-known 16-bit input-language identifier, and a single optional pending
   check, which stands for the debounce timer. The steps are these:
   - `OnKey`/`HandleKey`: the low-level hook callback.
   - `Schedule`: cancel-and-replace of the timer.
   - `Fire`: the timer going off.
   - `CheckLanguageChange`: compare the foreground thread's layout with the
     last-known identifier and emit one event on a change.
   - `LanguageName`: the identifier-to-name table.
   - `Dispose`.
2. **The audio-file selection logic** of `LanguageAudioPlayer` is modelled as
   pure functions (`language_audio.dfy`, module `LanguageAudio`). It covers
   the cache from file stem to path, the case-insensitive lookup, the display
   name heuristics, and the play-or-beep decision.

`strings.dfy` (module `Strings`) states the .NET string and path primitives
this logic uses, over `seq<char>`. `wrappers.dfy` holds `Option`.

Inputs that come from the OS or the framework are parameters of the model:
- The layout handle read by a check is an `Option<Int64>`. None means the
  query threw.
- The next hook in the chain (`CallNextHookEx`) is an uninterpreted function
  parameter.
- The clock of the debounce timer is a `now` parameter, in milliseconds.
- The audio directory listing, already filtered by `*.mp3`, is an
  `Option<seq<string>>`. None means the directory is missing or listing it
  threw.
- `File.Exists` is a predicate parameter.
- The current input language is a pair of culture and layout names. None
  means reading it threw.
- The exceptions of the player's audio calls are two boolean parameters.
  `stopFails` means stopping the previous sound threw. `playbackFails`
  means opening or starting the found file threw. Either one ends in the beep.

Notes on the source:
- Events never repeat an identifier without a change in between, but names
  can repeat. The name table gives two identifiers the name "English", and
  every unlisted identifier the name "Unknown". So a switch from 0x0409 to
  0x0809 emits "English" twice in a row, and so can two unlisted layouts
  emit "Unknown".
- The hook's flags and timer are static fields (Desktop/GlobalKeyboardHook.cs:33-35)
  that the constructor does not reset. The model treats them as the state of
  the single hook a process creates, so `Init` starts with no modifier held
  and no check pending.
- Hook installation failure is not surfaced. `SetWindowsHookEx` returning a
  null handle is stored silently (Desktop/GlobalKeyboardHook.cs:56).
- The gesture is the strict one. Only Left-Alt and Left-Shift are tracked, and
  a check is scheduled when one of them is released while the other is held.
- After the timer fires, the code keeps the spent one-shot timer object. It
  never fires again, so the model treats the slot as empty.
- A missing foreground window is not a failed query. The thread lookup then
  yields 0, and `GetKeyboardLayout(0)` reads the layout of the timer's own
  thread (Desktop/GlobalKeyboardHook.cs:166-168). The check compares that
  value as usual. The model allows this, because the value of a successful
  query is arbitrary.

## Model

| member | source | states |
|---|---|---|
| KeyboardHook.LowWord | Desktop/GlobalKeyboardHook.cs:169 | the identifier is in [0, 0xFFFF] and congruent to the layout handle modulo 0x10000, which is the low-16-bit mask of the handle read as a long |
| KeyboardHook.LowWordOfLayout | Desktop/GlobalKeyboardHook.cs:168-169 | for a handle made of a device word above a language word, the masked value is exactly the language word |
| KeyboardHook.LanguageName | Desktop/GlobalKeyboardHook.cs:194-209 | the name table is total: a listed identifier gets its table name, and "Unknown" is returned exactly for identifiers outside the table |
| KeyboardHook.KnownNames | Desktop/GlobalKeyboardHook.cs:198-200 | "English" is returned exactly for 0x0409 and 0x0809, and "Bulgarian" exactly for 0x0402 |
| KeyboardHook.Init | Desktop/GlobalKeyboardHook.cs:46-57 | a new hook has no modifier held, no check pending, and the masked start-up layout as its current language |
| KeyboardHook.Schedule | Desktop/GlobalKeyboardHook.cs:144-156 | scheduling leaves exactly one pending check, due 250 ms after the gesture, replacing any earlier one, and changes nothing else |
| KeyboardHook.ScheduleAllKeepsLast | Desktop/GlobalKeyboardHook.cs:146-155 | after any non-empty burst of schedules, the single pending check is the one timed from the last schedule; flags and language are untouched |
| KeyboardHook.Dispose | Desktop/GlobalKeyboardHook.cs:214-219 | disposal empties the pending slot and keeps the flags and the current language |
| KeyboardHook.DisposeIdempotent | Desktop/GlobalKeyboardHook.cs:217-218 | disposing twice equals disposing once, and no check can fire after disposal |
| KeyboardHook.HandleKey | Desktop/GlobalKeyboardHook.cs:85-135 | Left-Alt or Left-Shift down sets its flag and up clears it, keeping the other flag; a check is scheduled exactly when one of the pair is released while the other is held; events with a negative code, another key or another message change nothing; the language is never touched |
| KeyboardHook.OnKey | Desktop/GlobalKeyboardHook.cs:82-139 | whatever branch is taken, the callback returns the next hook's result on the original nCode, wParam and lParam; Left-Alt or Left-Shift down sets its flag and up clears it, keeping the other; a check is scheduled exactly on the gesture; untracked events change nothing and the language is kept |
| KeyboardHook.RightModifiersIgnored | Desktop/GlobalKeyboardHook.cs:95-115 | Right-Alt and Right-Shift events leave the state unchanged for any message |
| KeyboardHook.GestureFreeNoSchedule | Desktop/GlobalKeyboardHook.cs:95-134 | a sequence of key events none of which is the gesture at the state it meets never schedules a check and never changes the current language |
| KeyboardHook.AltTapSchedulesNothing | Desktop/GlobalKeyboardHook.cs:97-112 | Left-Alt pressed and released while Left-Shift is up is gesture-free: it leaves the Alt flag cleared and schedules nothing |
| KeyboardHook.NoReleaseNoSchedule | Desktop/GlobalKeyboardHook.cs:95-134 | the special case with no Left-Alt or Left-Shift release at all: no check is scheduled and the current language is unchanged |
| KeyboardHook.CheckLanguageChange | Desktop/GlobalKeyboardHook.cs:161-189 | a failed query changes nothing; an event is emitted exactly when the masked layout differs from the current language; it names the new identifier and only the identifier changes; otherwise the state is unchanged |
| KeyboardHook.CheckTwiceEmitsOnce | Desktop/GlobalKeyboardHook.cs:177-182 | a second check that observes the same layout emits nothing and changes nothing |
| KeyboardHook.Fire | Desktop/GlobalKeyboardHook.cs:150-155 | the pending check runs exactly when it is due, then the slot is empty; otherwise nothing changes and nothing is emitted; the flags are never touched |
| KeyboardHook.BurstQueriesOnce | Desktop/GlobalKeyboardHook.cs:144-156 | after a burst of gestures, a tick before the last gesture's deadline runs no query, even past earlier deadlines; a tick at or after it runs one; a later tick runs none |
| KeyboardHook.ChangesNeverRepeat | Desktop/GlobalKeyboardHook.cs:177-182 | the transitions of an identifier sequence are drawn from it: the first differs from the starting identifier and no two consecutive ones are equal, so no two events carry the same identifier without a change in between (their names can still repeat; see the notes above) |
| KeyboardHook.RunChecksEmitsChanges | Desktop/GlobalKeyboardHook.cs:161-189 | over any sequence of checks, the emitted names are those of the genuine identifier transitions among the observed values, in order; the final language is the last observed one; nothing else changes |
| Strings.Contains | Desktop/LanguageAudioPlayer.cs:109 | ordinal substring test: true exactly when the pattern occurs at some index |
| Strings.FirstWord | Desktop/LanguageAudioPlayer.cs:117 | `Split(' ')[0]` is a prefix of the input with no space, and is either the whole input or followed by a space |
| Strings.FoldEqualIffEqualsIgnoreCase | Desktop/LanguageAudioPlayer.cs:31 | two strings have equal folded forms exactly when they are equal ignoring case, position by position |
| Strings.LastIndexOfAny | Desktop/LanguageAudioPlayer.cs:47 | the last index holding one of the given characters, with none after it, or -1 when none occurs (the search behind `Path.GetFileName` and the extension split) |
| Strings.FileName | Desktop/LanguageAudioPlayer.cs:47 | `Path.GetFileName`: a suffix of the path with no separator, preceded by a separator unless it is the whole path |
| Strings.FileStem | Desktop/LanguageAudioPlayer.cs:47 | the stem is the file name after the last separator with its last '.' and everything after it removed, or the whole file name when it has no '.'; it contains no separator |
| Strings.StripExtension | Desktop/LanguageAudioPlayer.cs:47 | the part before the last '.', which is the whole name exactly when it has no '.' |
| LanguageAudio.StoreAll | Desktop/LanguageAudioPlayer.cs:45-49 | after the indexer assignments, every key is present and holds the value of its last entry |
| LanguageAudio.BuildCache | Desktop/LanguageAudioPlayer.cs:44-49 | every listed file's folded stem is a key, and each key maps to the last listed file with that stem ignoring case |
| LanguageAudio.BuildCacheFolded | Desktop/LanguageAudioPlayer.cs:31 | every key of the built cache is in folded form |
| LanguageAudio.CacheAudioFiles | Desktop/LanguageAudioPlayer.cs:38-56 | a missing or unreadable directory gives an empty cache; otherwise the keys are exactly the folded stems of the listed files |
| LanguageAudio.FindAudioFile | Desktop/LanguageAudioPlayer.cs:126-135 | a returned path is a cache value stored under a key equal to the name ignoring case; with folded keys, null is returned exactly when no key matches |
| LanguageAudio.FindInBuiltCache | Desktop/LanguageAudioPlayer.cs:129 | lookup in the built cache succeeds exactly when some listed file's stem equals the name ignoring case, and then yields the last such file |
| LanguageAudio.DisplayName | Desktop/LanguageAudioPlayer.cs:99-119 | "Bulgarian" when either name contains it, taking precedence; else "English" when the culture name contains it; else a space-free prefix of the culture name that ends at its first space or at its end |
| LanguageAudio.DisplayNameIsOneWord | Desktop/LanguageAudioPlayer.cs:108-118 | the display name never contains a space and is "Bulgarian", "English" or a prefix of the culture name; a culture name containing both words gives "Bulgarian" |
| LanguageAudio.PlayForName | Desktop/LanguageAudioPlayer.cs:74-85 | a file is played exactly when the lookup found a path, the file exists and playback starts; the played path is a cache value matching the name ignoring case; otherwise it beeps |
| LanguageAudio.PlayLanguageAudio | Desktop/LanguageAudioPlayer.cs:62-92 | an exception from stopping the previous sound or from reading the input language beeps; otherwise a file is played exactly when the display name's lookup found an existing file and opening and starting it did not throw |
| LanguageAudio.BulgarianPlaysListedFile | Desktop/LanguageAudioPlayer.cs:76-79 | with a listed, existing file whose stem is "Bulgarian" ignoring case, a layout naming Bulgarian plays a file |

## Left out

- The Win32 calls (`SetWindowsHookEx`, `UnhookWindowsHookEx`, `CallNextHookEx`, `GetForegroundWindow`, `GetWindowThreadProcessId`, `GetKeyboardLayout`, `GetModuleHandle`) are foreign calls. They appear only as inputs: the layout value of a check, the next-hook function and the start-up layout.
- Real time and threading are not modelled. That covers the `System.Threading.Timer` callback context and any race between a late timer callback and `Dispose`. Only the single pending slot and its due time are kept.
- `Debug.WriteLine` and `Console.WriteLine` are logging only.
- NAudio playback (`PlayAudioFile`, `StopCurrentAudio`, `Dispose` of the player) is not modelled. The model only decides between playing a path and beeping.
- The file system calls (`Directory.Exists`, `Directory.GetFiles` with its `*.mp3` pattern, `File.Exists`) are inputs.
- `InputLanguage.CurrentInputLanguage` and `CultureInfo` are framework calls. Their names are inputs.
- The tray UI and process entry point (Desktop/LanguageMonitorApp.cs, Desktop/Program.cs) are glue. Desktop/LanguageMonitorApp.cs:70 calls `PlayLanguageAudio(languageName)`, but Desktop/LanguageAudioPlayer.cs:62 declares only a parameterless overload. That wiring is not modelled. Lookup by name is `PlayForName`.
- Strings.FoldEqualIffEqualsIgnoreCase: case folding covers ASCII letters only. Non-ASCII case mappings of `OrdinalIgnoreCase` are not modelled.
- Strings.FileStem: only '\\' and '/' are treated as separators. The drive-root prefix handling of `Path.GetFileName` is not modelled.
- The change callback raising an exception is not modelled. The source catches it after the identifier has already been updated, which the model's state already reflects.

=== FILE: keyboard_hook.dfy ===
/** The language-change detection engine of the global keyboard hook, as a
    pure state machine.

    The hook's static fields become one immutable `HookState`. The OS calls
    the engine relies on appear as inputs: the keyboard layout read during a
    check is an `Option<Int64>` (None when the query throws), the next hook in
    the chain is a function parameter, and the clock that the debounce timer
    runs on is a `now` parameter in milliseconds. */
module KeyboardHook {
  import opened Wrappers

  // Message identifiers carried in wParam.
  const WM_KEYDOWN: int := 0x0100
  const WM_KEYUP: int := 0x0101
  const WM_SYSKEYDOWN: int := 0x0104
  const WM_SYSKEYUP: int := 0x0105

  // Virtual-key codes carried in the first field of the structure lParam points to.
  const VK_LMENU: int := 0xA4
  const VK_RMENU: int := 0xA5
  const VK_LSHIFT: int := 0xA0
  const VK_RSHIFT: int := 0xA1

  /** Delay between a recognised gesture and the layout check it schedules. */
  const CheckDelayMs: nat := 250

  /** A keyboard-layout handle read as a C# `long`. */
  type Int64 = x: int | -0x8000_0000_0000_0000 <= x < 0x8000_0000_0000_0000

  /** An input-language identifier: the low word of a layout handle. */
  type LangId = x: int | 0 <= x < 0x1_0000

  /** The part of the low-level keyboard structure that the callback reads. */
  datatype KeyInfo = KeyInfo(vkCode: int)

  /** A one-shot timer that runs the language check at `dueAt`. */
  datatype Timer = Timer(dueAt: nat)

  datatype HookState = HookState(
    leftAltPressed: bool,
    leftShiftPressed: bool,
    currentInputLanguage: LangId,
    pending: Option<Timer>)

  /** The rest of the hook chain (`CallNextHookEx`), left uninterpreted. */
  type NextHook = (int, int, KeyInfo) -> int

  /** What one hook callback produces: the new state and the value returned to the OS. */
  datatype KeyStep = KeyStep(state: HookState, result: int)

  /** What one language check produces: the new state and the name passed to
      the change callback, if it was invoked. */
  datatype CheckStep = CheckStep(state: HookState, event: Option<string>)

  /** What one timer tick produces: whether the pending check ran, and its outcome. */
  datatype FireStep = FireStep(fired: bool, state: HookState, event: Option<string>)

  // ---------------------------------------------------------------------
  // Layout identifiers and names
  // ---------------------------------------------------------------------

  /** `(uint)((long)layout & 0xFFFF)`. Dafny's `%` is Euclidean, so for a
      negative handle it yields the same low 16 bits as the two's-complement
      mask. */
  function LowWord(layout: Int64): (id: LangId)
    ensures (layout - id) % 0x1_0000 == 0
  {
    layout % 0x1_0000
  }

  /** A layout handle is a device word above a language word; the low word of
      any such handle is its language word. */
  lemma LowWordOfLayout(device: int, lang: LangId)
    requires -0x8000_0000_0000 <= device < 0x8000_0000_0000
    ensures LowWord(device * 0x1_0000 + lang) == lang
  {
    var h := device * 0x1_0000 + lang;
    assert h - lang == device * 0x1_0000;
    LowWordUnique(h, lang);
  }

  /** The low word is the only identifier congruent to the handle. */
  lemma LowWordUnique(layout: Int64, id: LangId)
    requires (layout - id) % 0x1_0000 == 0
    ensures LowWord(layout) == id
  {
    var r := LowWord(layout);
    assert (r - id) % 0x1_0000 == 0 by {
      assert r - id == (layout - id) - (layout - r);
    }
  }

  /** The identifiers the name table knows, with their names. */
  const LanguageTable: map<int, string> := map[
    0x0409 := "English",
    0x0809 := "English",
    0x0402 := "Bulgarian",
    0x0407 := "German",
    0x040C := "French",
    0x0410 := "Italian",
    0x0C0A := "Spanish",
    0x0419 := "Russian",
    0x041F := "Turkish"]

  /** `GetLanguageName`: total, with "Unknown" for every identifier outside
      the table. */
  function LanguageName(langId: int): (name: string)
    ensures langId in LanguageTable ==> name == LanguageTable[langId]
    ensures langId !in LanguageTable ==> name == "Unknown"
    ensures name == "Unknown" <==> langId !in LanguageTable
  {
    match langId
    case 0x0409 => "English"
    case 0x0809 => "English"
    case 0x0402 => "Bulgarian"
    case 0x0407 => "German"
    case 0x040C => "French"
    case 0x0410 => "Italian"
    case 0x0C0A => "Spanish"
    case 0x0419 => "Russian"
    case 0x041F => "Turkish"
    case _ => "Unknown"
  }

  /** The two English layouts and the Bulgarian one, by name. */
  lemma KnownNames(langId: int)
    ensures LanguageName(langId) == "English" <==> langId == 0x0409 || langId == 0x0809
    ensures LanguageName(langId) == "Bulgarian" <==> langId == 0x0402
  {
  }

  // ---------------------------------------------------------------------
  // Construction, scheduling and disposal
  // ---------------------------------------------------------------------

  /** The constructor: no modifier held, no check pending, and the current
      language read from the foreground thread's layout at start-up. The
      source keeps this state in static fields that the constructor does not
      reset; the model treats it as the state of the one hook a process creates. */
  function Init(layout: Int64): (s: HookState)
    ensures !s.leftAltPressed && !s.leftShiftPressed
    ensures s.pending.None?
    ensures (layout - s.currentInputLanguage) % 0x1_0000 == 0
  {
    HookState(false, false, LowWord(layout), None)
  }

  /** `ScheduleLanguageCheck`: cancel any pending timer and start a new one
      due `CheckDelayMs` after `now`. Nothing but the slot changes. */
  function Schedule(s: HookState, now: nat): (r: HookState)
    ensures r.pending == Some(Timer(now + CheckDelayMs))
    ensures r.(pending := s.pending) == s
  {
    s.(pending := Some(Timer(now + CheckDelayMs)))
  }

  /** A burst of schedules, one per time in `times`, in order. */
  function ScheduleAll(s: HookState, times: seq<nat>): HookState
    decreases |times|
  {
    if |times| == 0 then s else ScheduleAll(Schedule(s, times[0]), times[1..])
  }

  /** A burst of schedules leaves one pending check, the one timed from the
      last schedule in the burst, and touches nothing else. */
  lemma {:induction false} ScheduleAllKeepsLast(s: HookState, times: seq<nat>)
    requires |times| > 0
    ensures ScheduleAll(s, times).pending == Some(Timer(times[|times| - 1] + CheckDelayMs))
    ensures ScheduleAll(s, times).(pending := s.pending) == s
    decreases |times|
  {
    if |times| > 1 {
      ScheduleAllKeepsLast(Schedule(s, times[0]), times[1..]);
    }
  }

  /** `Dispose`: the pending timer is cancelled; the flags and the current
      language are kept. */
  function Dispose(s: HookState): (r: HookState)
    ensures r.pending.None?
    ensures r.(pending := s.pending) == s
  {
    s.(pending := None)
  }

  /** Disposing twice is the same as disposing once, and a disposed hook has
      no check left to fire. */
  lemma DisposeIdempotent(s: HookState, now: nat, query: Option<Int64>)
    ensures Dispose(Dispose(s)) == Dispose(s)
    ensures !Fire(Dispose(s), now, query).fired
  {
  }

  // ---------------------------------------------------------------------
  // The hook callback
  // ---------------------------------------------------------------------

  predicate IsKeyDown(wParam: int) {
    wParam == WM_KEYDOWN || wParam == WM_SYSKEYDOWN
  }

  predicate IsKeyUp(wParam: int) {
    wParam == WM_KEYUP || wParam == WM_SYSKEYUP
  }

  /** The Alt+Shift gesture: one of the left pair is released while the
      other is still held. */
  predicate Gesture(s: HookState, nCode: int, wParam: int, vkCode: int) {
    && nCode >= 0
    && IsKeyUp(wParam)
    && ((vkCode == VK_LMENU && s.leftShiftPressed) || (vkCode == VK_LSHIFT && s.leftAltPressed))
  }

  /** The events the callback reacts to: a press or release of Left-Alt or
      Left-Shift with a valid hook code. */
  predicate Tracked(nCode: int, wParam: int, vkCode: int) {
    && nCode >= 0
    && (vkCode == VK_LMENU || vkCode == VK_LSHIFT)
    && (IsKeyDown(wParam) || IsKeyUp(wParam))
  }

  /** The state update `HookCallback` performs before it forwards the event. */
  function HandleKey(s: HookState, nCode: int, wParam: int, vkCode: int, now: nat): (r: HookState)
    // The language identifier is never touched by the callback.
    ensures r.currentInputLanguage == s.currentInputLanguage
    // Untracked events change nothing.
    ensures !Tracked(nCode, wParam, vkCode) ==> r == s
    // Left-Alt: press sets, release clears; Left-Shift is kept.
    ensures nCode >= 0 && vkCode == VK_LMENU && IsKeyDown(wParam) ==> r.leftAltPressed && r.leftShiftPressed == s.leftShiftPressed
    ensures nCode >= 0 && vkCode == VK_LMENU && IsKeyUp(wParam) ==> !r.leftAltPressed && r.leftShiftPressed == s.leftShiftPressed
    // Left-Shift: press sets, release clears; Left-Alt is kept.
    ensures nCode >= 0 && vkCode == VK_LSHIFT && IsKeyDown(wParam) ==> r.leftShiftPressed && r.leftAltPressed == s.leftAltPressed
    ensures nCode >= 0 && vkCode == VK_LSHIFT && IsKeyUp(wParam) ==> !r.leftShiftPressed && r.leftAltPressed == s.leftAltPressed
    // A check is scheduled exactly on the gesture; otherwise the slot is kept.
    ensures Gesture(s, nCode, wParam, vkCode) ==> r.pending == Some(Timer(now + CheckDelayMs))
    ensures !Gesture(s, nCode, wParam, vkCode) ==> r.pending == s.pending
  {
    if nCode < 0 then s
    else if vkCode == VK_LMENU then
      if IsKeyDown(wParam) then s.(leftAltPressed := true)
      else if IsKeyUp(wParam) then
        var released := s.(leftAltPressed := false);
        if s.leftShiftPressed then Schedule(released, now) else released
      else s
    else if vkCode == VK_LSHIFT then
      if IsKeyDown(wParam) then s.(leftShiftPressed := true)
      else if IsKeyUp(wParam) then
        var released := s.(leftShiftPressed := false);
        if s.leftAltPressed then Schedule(released, now) else released
      else s
    else s
  }

  /** `HookCallback`: update the state (only when the hook code is valid) and
      always hand the original arguments to the next hook, returning its result. */
  function OnKey(s: HookState, nCode: int, wParam: int, lParam: KeyInfo, now: nat, next: NextHook): (r: KeyStep)
    ensures r.result == next(nCode, wParam, lParam)
    ensures r.state.currentInputLanguage == s.currentInputLanguage
    ensures !Tracked(nCode, wParam, lParam.vkCode) ==> r.state == s
    ensures nCode >= 0 && lParam.vkCode == VK_LMENU && IsKeyDown(wParam) ==> r.state.leftAltPressed && r.state.leftShiftPressed == s.leftShiftPressed
    ensures nCode >= 0 && lParam.vkCode == VK_LMENU && IsKeyUp(wParam) ==> !r.state.leftAltPressed && r.state.leftShiftPressed == s.leftShiftPressed
    ensures nCode >= 0 && lParam.vkCode == VK_LSHIFT && IsKeyDown(wParam) ==> r.state.leftShiftPressed && r.state.leftAltPressed == s.leftAltPressed
    ensures nCode >= 0 && lParam.vkCode == VK_LSHIFT && IsKeyUp(wParam) ==> !r.state.leftShiftPressed && r.state.leftAltPressed == s.leftAltPressed
    ensures Gesture(s, nCode, wParam, lParam.vkCode) ==> r.state.pending == Some(Timer(now + CheckDelayMs))
    ensures !Gesture(s, nCode, wParam, lParam.vkCode) ==> r.state.pending == s.pending
  {
    KeyStep(HandleKey(s, nCode, wParam, lParam.vkCode, now), next(nCode, wParam, lParam))
  }

  /** Right-Alt and Right-Shift are not part of the gesture: whatever the
      message, the callback leaves the state as it was. */
  lemma RightModifiersIgnored(s: HookState, nCode: int, wParam: int, now: nat, next: NextHook)
    ensures OnKey(s, nCode, wParam, KeyInfo(VK_RMENU), now, next).state == s
    ensures OnKey(s, nCode, wParam, KeyInfo(VK_RSHIFT), now, next).state == s
  {
  }

  // ---------------------------------------------------------------------
  // The language check and the timer that runs it
  // ---------------------------------------------------------------------

  /** `CheckLanguageChange`. `query` is the foreground thread's layout handle,
      or None when reading it threw (the exception is swallowed). */
  function CheckLanguageChange(s: HookState, query: Option<Int64>): (r: CheckStep)
    // A failed query changes nothing and emits nothing.
    ensures query.None? ==> r == CheckStep(s, None)
    // An event is emitted exactly when the observed identifier differs.
    ensures r.event.Some? <==> query.Some? && LowWord(query.value) != s.currentInputLanguage
    // On a change, only the identifier moves and the event names the new one.
    ensures r.event.Some? ==> r.state == s.(currentInputLanguage := LowWord(query.value))
    ensures r.event.Some? ==> r.event.value == LanguageName(r.state.currentInputLanguage)
    // Without an event, the state is untouched.
    ensures r.event.None? ==> r.state == s
    // After a successful query the state agrees with what was observed.
    ensures query.Some? ==> r.state.currentInputLanguage == LowWord(query.value)
  {
    match query
    case None => CheckStep(s, None)
    case Some(layout) =>
      var newId := LowWord(layout);
      if newId != s.currentInputLanguage then
        CheckStep(s.(currentInputLanguage := newId), Some(LanguageName(newId)))
      else
        CheckStep(s, None)
  }

  /** A second check that sees the same layout emits nothing and changes nothing. */
  lemma CheckTwiceEmitsOnce(s: HookState, layout: Int64)
    ensures var first := CheckLanguageChange(s, Some(layout));
            CheckLanguageChange(first.state, Some(layout)) == CheckStep(first.state, None)
  {
  }

  /** A timer tick at time `now`: a pending check that is due runs once and
      leaves the slot empty; otherwise nothing happens. */
  function Fire(s: HookState, now: nat, query: Option<Int64>): (r: FireStep)
    ensures r.fired <==> s.pending.Some? && s.pending.value.dueAt <= now
    ensures !r.fired ==> r.state == s && r.event.None?
    ensures r.fired ==> r.state.pending.None?
    ensures r.state.leftAltPressed == s.leftAltPressed && r.state.leftShiftPressed == s.leftShiftPressed
    ensures r.fired ==> CheckStep(r.state, r.event) == CheckLanguageChange(s.(pending := None), query)
  {
    match s.pending
    case None => FireStep(false, s, None)
    case Some(t) =>
      if now < t.dueAt then FireStep(false, s, None)
      else
        var c := CheckLanguageChange(s.(pending := None), query);
        FireStep(true, c.state, c.event)
  }

  /** Debounce: after a burst of gestures the layout is queried once, timed
      from the last gesture; a tick before that runs nothing (even if it is
      past the first gesture's deadline), and a second tick after it runs
      nothing either. */
  lemma BurstQueriesOnce(s: HookState, times: seq<nat>, early: nat, late: nat, later: nat, query: Option<Int64>, query2: Option<Int64>)
    requires |times| > 0
    requires early < times[|times| - 1] + CheckDelayMs <= late
    ensures !Fire(ScheduleAll(s, times), early, query).fired
    ensures Fire(ScheduleAll(s, times), late, query).fired
    ensures !Fire(Fire(ScheduleAll(s, times), late, query).state, later, query2).fired
  {
    ScheduleAllKeepsLast(s, times);
  }

  // ---------------------------------------------------------------------
  // Traces
  // ---------------------------------------------------------------------

  /** One intercepted key event, with the time it was handled at. */
  datatype KeyEvent = KeyEvent(nCode: int, wParam: int, lParam: KeyInfo, now: nat)

  /** A release of Left-Alt or Left-Shift with a valid hook code: the only
      kind of event that can complete the gesture. */
  predicate ModifierRelease(e: KeyEvent) {
    e.nCode >= 0 && IsKeyUp(e.wParam) && (e.lParam.vkCode == VK_LMENU || e.lParam.vkCode == VK_LSHIFT)
  }

  /** The state after the callback has handled `events` in order. */
  function RunKeys(s: HookState, events: seq<KeyEvent>, next: NextHook): HookState
    decreases |events|
  {
    if |events| == 0 then s
    else
      var e := events[0];
      RunKeys(OnKey(s, e.nCode, e.wParam, e.lParam, e.now, next).state, events[1..], next)
  }

  /** No event of `events` completes the gesture at the state it meets. */
  predicate GestureFree(s: HookState, events: seq<KeyEvent>, next: NextHook)
    decreases |events|
  {
    |events| == 0 ||
    (var e := events[0];
     && !Gesture(s, e.nCode, e.wParam, e.lParam.vkCode)
     && GestureFree(OnKey(s, e.nCode, e.wParam, e.lParam, e.now, next).state, events[1..], next))
  }

  /** A run of key events without the gesture never schedules a check, and
      key events never touch the current language. */
  lemma {:induction false} GestureFreeNoSchedule(s: HookState, events: seq<KeyEvent>, next: NextHook)
    requires GestureFree(s, events, next)
    ensures RunKeys(s, events, next).pending == s.pending
    ensures RunKeys(s, events, next).currentInputLanguage == s.currentInputLanguage
    decreases |events|
  {
    if |events| > 0 {
      var e := events[0];
      GestureFreeNoSchedule(OnKey(s, e.nCode, e.wParam, e.lParam, e.now, next).state, events[1..], next);
    }
  }

  /** Left-Alt pressed and released while Left-Shift is up is not the
      gesture: the flag comes back and nothing is scheduled. */
  lemma AltTapSchedulesNothing(s: HookState, t0: nat, t1: nat, next: NextHook)
    requires !s.leftShiftPressed
    ensures var events := [KeyEvent(0, WM_SYSKEYDOWN, KeyInfo(VK_LMENU), t0), KeyEvent(0, WM_KEYUP, KeyInfo(VK_LMENU), t1)];
            GestureFree(s, events, next) && RunKeys(s, events, next) == s.(leftAltPressed := false)
  {
    var events := [KeyEvent(0, WM_SYSKEYDOWN, KeyInfo(VK_LMENU), t0), KeyEvent(0, WM_KEYUP, KeyInfo(VK_LMENU), t1)];
    var s1 := OnKey(s, 0, WM_SYSKEYDOWN, KeyInfo(VK_LMENU), t0, next).state;
    assert events[1..] == [events[1]];
    assert events[1..][1..] == [];
    assert RunKeys(s, events, next) == RunKeys(s1, events[1..], next);
  }

  /** Without a modifier release no check is ever scheduled, and the key
      events never touch the current language. */
  lemma {:induction false} NoReleaseNoSchedule(s: HookState, events: seq<KeyEvent>, next: NextHook)
    requires forall i :: 0 <= i < |events| ==> !ModifierRelease(events[i])
    ensures RunKeys(s, events, next).pending == s.pending
    ensures RunKeys(s, events, next).currentInputLanguage == s.currentInputLanguage
    decreases |events|
  {
    if |events| > 0 {
      var e := events[0];
      var s1 := OnKey(s, e.nCode, e.wParam, e.lParam, e.now, next).state;
      assert !ModifierRelease(e);
      assert !Gesture(s, e.nCode, e.wParam, e.lParam.vkCode);
      NoReleaseNoSchedule(s1, events[1..], next);
    }
  }

  /** The identifiers a sequence of successful queries observes; failed
      queries observe nothing. */
  function Observed(queries: seq<Option<Int64>>): (ids: seq<LangId>)
    ensures |ids| <= |queries|
  {
    if |queries| == 0 then []
    else
      (match queries[0] case Some(layout) => [LowWord(layout)] case None => [])
      + Observed(queries[1..])
  }

  /** The identifiers of `ids` that differ from the one before them (the
      first one is compared with `prev`). */
  function Changes(prev: LangId, ids: seq<LangId>): (cs: seq<LangId>)
    ensures |cs| <= |ids|
    decreases |ids|
  {
    if |ids| == 0 then []
    else if ids[0] != prev then [ids[0]] + Changes(ids[0], ids[1..])
    else Changes(prev, ids[1..])
  }

  /** The transitions never repeat: the first differs from `prev`, no two
      consecutive ones are equal, and each is one of `ids`. So no two events
      name the same identifier without a change in between. */
  lemma {:induction false} ChangesNeverRepeat(prev: LangId, ids: seq<LangId>)
    ensures var cs := Changes(prev, ids);
            && (|cs| > 0 ==> cs[0] != prev)
            && (forall i :: 0 < i < |cs| ==> cs[i] != cs[i - 1])
            && (forall i :: 0 <= i < |cs| ==> cs[i] in ids)
    decreases |ids|
  {
    if |ids| > 0 {
      ChangesNeverRepeat(ids[0], ids[1..]);
      ChangesNeverRepeat(prev, ids[1..]);
      var cs := Changes(prev, ids);
      if ids[0] != prev {
        var rest := Changes(ids[0], ids[1..]);
        assert cs == [ids[0]] + rest;
        forall i | 0 < i < |cs|
          ensures cs[i] != cs[i - 1]
        {
          assert cs[i] == rest[i - 1];
          if i > 1 { assert cs[i - 1] == rest[i - 2]; }
        }
        forall i | 0 <= i < |cs|
          ensures cs[i] in ids
        {
          if i > 0 { assert cs[i] == rest[i - 1]; assert rest[i - 1] in ids[1..]; }
        }
      } else {
        var rest := Changes(prev, ids[1..]);
        assert cs == rest;
        forall i | 0 <= i < |cs|
          ensures cs[i] in ids
        {
          assert cs[i] in ids[1..];
        }
      }
    }
  }

  function Names(ids: seq<LangId>): (names: seq<string>)
    ensures |names| == |ids|
    ensures forall i :: 0 <= i < |ids| ==> names[i] == LanguageName(ids[i])
  {
    if |ids| == 0 then [] else [LanguageName(ids[0])] + Names(ids[1..])
  }

  /** The state and the emitted names after a run of checks, one per query. */
  function RunChecks(s: HookState, queries: seq<Option<Int64>>): (r: (HookState, seq<string>))
    decreases |queries|
  {
    if |queries| == 0 then (s, [])
    else
      var c := CheckLanguageChange(s, queries[0]);
      var rest := RunChecks(c.state, queries[1..]);
      (rest.0, (match c.event case Some(n) => [n] case None => []) + rest.1)
  }

  /** A run of checks emits one event per genuine identifier transition among
      the values it observed, naming the new identifier each time, and ends
      with the last observed identifier as the current one. */
  lemma {:induction false} RunChecksEmitsChanges(s: HookState, queries: seq<Option<Int64>>)
    ensures RunChecks(s, queries).1 == Names(Changes(s.currentInputLanguage, Observed(queries)))
    ensures var ids := Observed(queries);
            RunChecks(s, queries).0.currentInputLanguage == (if |ids| == 0 then s.currentInputLanguage else ids[|ids| - 1])
    ensures RunChecks(s, queries).0.(currentInputLanguage := s.currentInputLanguage) == s
    decreases |queries|
  {
    if |queries| > 0 {
      var c := CheckLanguageChange(s, queries[0]);
      RunChecksEmitsChanges(c.state, queries[1..]);
      var tail := Observed(queries[1..]);
      match queries[0]
      case None =>
        assert Observed(queries) == tail;
      case Some(layout) =>
        var id := LowWord(layout);
        assert Observed(queries) == [id] + tail;
        assert ([id] + tail)[1..] == tail;
        if id != s.currentInputLanguage {
          assert Changes(s.currentInputLanguage, [id] + tail) == [id] + Changes(id, tail);
          assert Names([id] + Changes(id, tail)) == [LanguageName(id)] + Names(Changes(id, tail));
        } else {
          assert Changes(s.currentInputLanguage, [id] + tail) == Changes(id, tail);
        }
    }
  }
}

=== FILE: language_audio.dfy ===
/** The selection logic of the language audio player: the cache from file
    stem to path built at start-up, the case-insensitive lookup in it, the
    display name derived from the current input language, and the choice
    between playing a file and the default beep.

    The file system and the framework are inputs: the directory listing is a
    sequence of paths (None when the directory is missing or listing it
    throws), `File.Exists` is a predicate parameter, and the current input
    language is a pair of names (None when reading it throws). */
module LanguageAudio {
  import opened Wrappers
  import opened Strings

  /** The cache: case-folded file stem to the path of the file. Folding the
      key stands for the dictionary's `StringComparer.OrdinalIgnoreCase`. */
  type Cache = map<string, string>

  /** The sound the player ends up making. */
  datatype Sound = PlayFile(path: string) | Beep

  /** The two names of `InputLanguage` the player reads. */
  datatype InputLanguage = InputLanguage(cultureName: string, layoutName: string)

  /** The cache key of an audio file: its name without extension, folded. */
  function KeyOf(file: string): string {
    Fold(FileStem(file))
  }

  /** `entries[i]` is the last entry of `entries` whose key is `k`. */
  predicate LastEntry<V>(entries: seq<(string, V)>, k: string, i: int) {
    && 0 <= i < |entries|
    && entries[i].0 == k
    && forall j :: i < j < |entries| ==> entries[j].0 != k
  }

  /** Every key of a cache is already in folded form. */
  predicate FoldedKeys(cache: Cache) {
    forall k :: k in cache ==> Fold(k) == k
  }

  /** Dictionary indexer assignments `d[key] = value` for each entry in
      order: every key ends up present, holding the value of its last entry. */
  function StoreAll<V>(entries: seq<(string, V)>): (d: map<string, V>)
    ensures forall i :: 0 <= i < |entries| ==> entries[i].0 in d
    ensures forall k :: k in d ==> exists i :: LastEntry(entries, k, i) && d[k] == entries[i].1
    decreases |entries|
  {
    if |entries| == 0 then map[]
    else
      var init := entries[..|entries| - 1];
      var prev := StoreAll(init);
      StoreStep(entries, init, prev);
      prev[entries[|entries| - 1].0 := entries[|entries| - 1].1]
  }

  /** Storing the last entry into the dictionary of all the others yields
      the dictionary of all entries. */
  lemma StoreStep<V>(entries: seq<(string, V)>, init: seq<(string, V)>, prev: map<string, V>)
    requires |entries| > 0 && init == entries[..|entries| - 1]
    requires forall i :: 0 <= i < |init| ==> init[i].0 in prev
    requires forall k :: k in prev ==> exists i :: LastEntry(init, k, i) && prev[k] == init[i].1
    ensures var d := prev[entries[|entries| - 1].0 := entries[|entries| - 1].1];
            && (forall i :: 0 <= i < |entries| ==> entries[i].0 in d)
            && (forall k :: k in d ==> exists i :: LastEntry(entries, k, i) && d[k] == entries[i].1)
  {
    var last := entries[|entries| - 1];
    var d := prev[last.0 := last.1];
    forall i | 0 <= i < |entries|
      ensures entries[i].0 in d
    {
      if i < |init| {
        assert init[i] == entries[i];
      }
    }
    forall k | k in d
      ensures exists i :: LastEntry(entries, k, i) && d[k] == entries[i].1
    {
      if k == last.0 {
        assert LastEntry(entries, k, |entries| - 1);
      } else {
        var i :| LastEntry(init, k, i) && prev[k] == init[i].1;
        assert forall j :: i < j < |init| ==> init[j] == entries[j];
        assert LastEntry(entries, k, i);
      }
    }
  }

  /** The (key, path) pair `CacheAudioFiles` stores for each listed file. */
  function Entries(files: seq<string>): (es: seq<(string, string)>)
    ensures |es| == |files|
    ensures forall i :: 0 <= i < |files| ==> es[i] == (KeyOf(files[i]), files[i])
  {
    seq(|files|, i requires 0 <= i < |files| => (KeyOf(files[i]), files[i]))
  }

  /** `files[i]` is the last file in `files` whose key is `k`. */
  predicate LastWithKey(files: seq<string>, k: string, i: int) {
    && 0 <= i < |files|
    && KeyOf(files[i]) == k
    && forall j :: i < j < |files| ==> KeyOf(files[j]) != k
  }

  /** The `foreach` of `CacheAudioFiles`: each file is stored under its key,
      a later file overwriting an earlier one whose stem is equal ignoring
      case. */
  function BuildCache(files: seq<string>): (cache: Cache)
    ensures forall i :: 0 <= i < |files| ==> KeyOf(files[i]) in cache
    ensures forall k :: k in cache ==> exists i :: LastWithKey(files, k, i) && cache[k] == files[i]
  {
    var es := Entries(files);
    var cache := StoreAll(es);
    forall k | k in cache
      ensures exists i :: LastWithKey(files, k, i) && cache[k] == files[i]
    {
      var i :| LastEntry(es, k, i) && cache[k] == es[i].1;
      assert LastWithKey(files, k, i);
    }
    cache
  }

  /** The keys `BuildCache` produces are folded. */
  lemma BuildCacheFolded(files: seq<string>)
    ensures FoldedKeys(BuildCache(files))
  {
    forall k | k in BuildCache(files)
      ensures Fold(k) == k
    {
      var i :| LastWithKey(files, k, i) && BuildCache(files)[k] == files[i];
      FoldIdempotent(FileStem(files[i]));
    }
  }

  /** `CacheAudioFiles`: a missing or unreadable directory leaves the cache empty. */
  function CacheAudioFiles(listing: Option<seq<string>>): (cache: Cache)
    ensures listing.None? ==> cache == map[]
    ensures listing.Some? ==> cache.Keys == set i | 0 <= i < |listing.value| :: KeyOf(listing.value[i])
  {
    match listing
    case None => map[]
    case Some(files) =>
      var cache := BuildCache(files);
      forall k | k in cache
        ensures exists i :: 0 <= i < |files| && KeyOf(files[i]) == k
      {
        var i :| LastWithKey(files, k, i) && cache[k] == files[i];
      }
      cache
  }

  /** `FindAudioFileForLanguage`: the cached path whose key equals `name`
      ignoring case, or None. */
  function FindAudioFile(cache: Cache, name: string): (r: Option<string>)
    ensures r.Some? ==> r.value in cache.Values
    ensures r.Some? ==> exists k :: k in cache && EqualsIgnoreCase(k, name) && cache[k] == r.value
    ensures FoldedKeys(cache) ==> (r.None? <==> forall k :: k in cache ==> !EqualsIgnoreCase(k, name))
  {
    var key := Fold(name);
    if key in cache then
      FoldIdempotent(name);
      FoldEqualIffEqualsIgnoreCase(key, name);
      Some(cache[key])
    else
      assert FoldedKeys(cache) ==> forall k :: k in cache ==> !EqualsIgnoreCase(k, name) by {
        if FoldedKeys(cache) {
          forall k | k in cache
            ensures !EqualsIgnoreCase(k, name)
          {
            FoldEqualIffEqualsIgnoreCase(k, name);
          }
        }
      }
      None
  }

  /** Looking a name up in the cache built from a listing finds a file
      exactly when some listed file's stem equals the name ignoring case,
      and then it finds the last such file. */
  lemma FindInBuiltCache(files: seq<string>, name: string)
    ensures FindAudioFile(BuildCache(files), name).Some?
            <==> exists i :: 0 <= i < |files| && EqualsIgnoreCase(FileStem(files[i]), name)
    ensures FindAudioFile(BuildCache(files), name).Some? ==>
            exists i :: LastWithKey(files, Fold(name), i) && FindAudioFile(BuildCache(files), name).value == files[i]
  {
    var cache := BuildCache(files);
    if i :| 0 <= i < |files| && EqualsIgnoreCase(FileStem(files[i]), name) {
      FoldEqualIffEqualsIgnoreCase(FileStem(files[i]), name);
      assert KeyOf(files[i]) == Fold(name);
    }
    if Fold(name) in cache {
      var i :| LastWithKey(files, Fold(name), i) && cache[Fold(name)] == files[i];
      FoldEqualIffEqualsIgnoreCase(FileStem(files[i]), name);
    }
  }

  /** `GetLanguageDisplayName`: "Bulgarian" when either name mentions it,
      else "English" when the culture name mentions it, else the culture
      name's first space-separated word. */
  function DisplayName(cultureName: string, layoutName: string): (r: string)
    ensures Contains(cultureName, "Bulgarian") || Contains(layoutName, "Bulgarian") ==> r == "Bulgarian"
    ensures !Contains(cultureName, "Bulgarian") && !Contains(layoutName, "Bulgarian") && Contains(cultureName, "English") ==> r == "English"
    ensures !Contains(cultureName, "Bulgarian") && !Contains(layoutName, "Bulgarian") && !Contains(cultureName, "English") ==>
            IsPrefix(r, cultureName) && ' ' !in r && (r == cultureName || cultureName[|r|] == ' ')
  {
    if Contains(cultureName, "Bulgarian") || Contains(layoutName, "Bulgarian") then "Bulgarian"
    else if Contains(cultureName, "English") then "English"
    else FirstWord(cultureName)
  }

  /** Whatever the inputs, the display name is a single word: "Bulgarian",
      "English", or a leading part of the culture name. */
  lemma DisplayNameIsOneWord(cultureName: string, layoutName: string)
    ensures ' ' !in DisplayName(cultureName, layoutName)
    ensures var r := DisplayName(cultureName, layoutName);
            r == "Bulgarian" || r == "English" || IsPrefix(r, cultureName)
    ensures Contains(cultureName, "Bulgarian") && Contains(cultureName, "English") ==> DisplayName(cultureName, layoutName) == "Bulgarian"
  {
  }

  /** The play-or-beep decision for a language name: a file is played only
      when the lookup found a path, the file exists, and opening and starting
      it did not throw (`playbackFails`); every other case beeps. */
  function PlayForName(cache: Cache, name: string, fileExists: string -> bool, playbackFails: bool): (r: Sound)
    ensures r.PlayFile? <==> FindAudioFile(cache, name).Some? && fileExists(FindAudioFile(cache, name).value) && !playbackFails
    ensures r.PlayFile? ==> r.path in cache.Values && fileExists(r.path)
    ensures r.PlayFile? ==> exists k :: k in cache && EqualsIgnoreCase(k, name) && cache[k] == r.path
  {
    match FindAudioFile(cache, name)
    case Some(file) =>
      if fileExists(file) && !playbackFails then PlayFile(file) else Beep
    case None => Beep
  }

  /** `PlayLanguageAudio`. Every exception inside its `try` ends in the beep:
      `stopFails` is stopping the previous sound throwing, `current` is None
      when reading the current input language threw, and `playbackFails` is
      opening or starting the found file throwing. The lookup uses the
      display name of the current input language. */
  function PlayLanguageAudio(cache: Cache, stopFails: bool, current: Option<InputLanguage>, fileExists: string -> bool, playbackFails: bool): (r: Sound)
    ensures stopFails ==> r == Beep
    ensures current.None? ==> r == Beep
    ensures r.PlayFile? ==> r.path in cache.Values && fileExists(r.path) && !playbackFails
    ensures !stopFails && current.Some? ==>
            (r.PlayFile? <==> FindAudioFile(cache, DisplayName(current.value.cultureName, current.value.layoutName)).Some?
                              && fileExists(FindAudioFile(cache, DisplayName(current.value.cultureName, current.value.layoutName)).value)
                              && !playbackFails)
  {
    if stopFails then Beep
    else
      match current
      case None => Beep
      case Some(lang) => PlayForName(cache, DisplayName(lang.cultureName, lang.layoutName), fileExists, playbackFails)
  }

  /** With a file named after a language in the listing, and that file
      present on disk, the player plays it for any culture naming the
      language as "Bulgarian" does. */
  lemma BulgarianPlaysListedFile(files: seq<string>, i: nat, lang: InputLanguage, fileExists: string -> bool)
    requires i < |files| && EqualsIgnoreCase(FileStem(files[i]), "Bulgarian")
    requires Contains(lang.layoutName, "Bulgarian")
    requires forall j :: 0 <= j < |files| ==> fileExists(files[j])
    ensures PlayLanguageAudio(BuildCache(files), false, Some(lang), fileExists, false).PlayFile?
  {
    FindInBuiltCache(files, "Bulgarian");
  }
}

=== FILE: strings.dfy ===
/** The .NET string and path primitives the audio player relies on, stated
    over `seq<char>`: ordinal substring search, `Split(' ')[0]`, ordinal
    case-insensitive comparison, `LastIndexOf` and the two `Path` helpers
    that turn a file path into a file stem. */
module Strings {

  predicate IsPrefix(p: string, s: string) {
    |p| <= |s| && s[..|p|] == p
  }

  predicate IsSuffix(p: string, s: string) {
    |p| <= |s| && s[|s| - |p|..] == p
  }

  /** `sub` occurs in `s` starting at index `i`. */
  predicate OccursAt(s: string, sub: string, i: int) {
    0 <= i && i + |sub| <= |s| && s[i..i + |sub|] == sub
  }

  /** Ordinal `String.Contains(string)`: the empty string occurs everywhere. */
  function Contains(s: string, sub: string): (b: bool)
    ensures b <==> exists i :: OccursAt(s, sub, i)
    decreases |s|
  {
    if |s| < |sub| then
      assert forall i :: !OccursAt(s, sub, i);
      false
    else if s[..|sub|] == sub then
      assert OccursAt(s, sub, 0);
      true
    else
      var rest := Contains(s[1..], sub);
      ShiftOccurrence(s, sub);
      rest
  }

  /** An occurrence past index 0 is an occurrence in the tail, and back. */
  lemma ShiftOccurrence(s: string, sub: string)
    requires |s| > 0 && !OccursAt(s, sub, 0)
    ensures (exists i :: OccursAt(s, sub, i)) <==> (exists j :: OccursAt(s[1..], sub, j))
  {
    if i :| OccursAt(s, sub, i) {
      assert i > 0;
      assert s[1..][i - 1..i - 1 + |sub|] == s[i..i + |sub|];
      assert OccursAt(s[1..], sub, i - 1);
    }
    if j :| OccursAt(s[1..], sub, j) {
      assert s[j + 1..j + 1 + |sub|] == s[1..][j..j + |sub|];
      assert OccursAt(s, sub, j + 1);
    }
  }

  /** `s.Split(' ')[0]`: everything before the first space, or all of `s`. */
  function FirstWord(s: string): (w: string)
    ensures IsPrefix(w, s)
    ensures ' ' !in w
    ensures w == s || s[|w|] == ' '
  {
    if |s| == 0 || s[0] == ' ' then ""
    else
      var w := [s[0]] + FirstWord(s[1..]);
      assert s == [s[0]] + s[1..];
      w
  }

  /** The character mapping behind `StringComparer.OrdinalIgnoreCase`,
      restricted to ASCII: lower-case letters fold to upper case. */
  function FoldChar(c: char): (d: char)
    ensures 'a' <= c <= 'z' ==> d as int == c as int - 32
    ensures !('a' <= c <= 'z') ==> d == c
    ensures !('a' <= d <= 'z')
  {
    if 'a' <= c <= 'z' then (c as int - 32) as char else c
  }

  /** The case-folded form of a string, character by character. */
  function Fold(s: string): (f: string)
    ensures |f| == |s|
    ensures forall i :: 0 <= i < |s| ==> f[i] == FoldChar(s[i])
  {
    if |s| == 0 then "" else [FoldChar(s[0])] + Fold(s[1..])
  }

  /** Ordinal case-insensitive equality, stated position by position. */
  predicate EqualsIgnoreCase(a: string, b: string) {
    |a| == |b| && forall i :: 0 <= i < |a| ==> FoldChar(a[i]) == FoldChar(b[i])
  }

  /** Two strings are equal ignoring case exactly when their folded forms
      are equal, which is what lets a map keyed by folded strings stand
      for a dictionary built with a case-insensitive comparer. */
  lemma FoldEqualIffEqualsIgnoreCase(a: string, b: string)
    ensures Fold(a) == Fold(b) <==> EqualsIgnoreCase(a, b)
  {
    if Fold(a) == Fold(b) {
      forall i | 0 <= i < |a|
        ensures FoldChar(a[i]) == FoldChar(b[i])
      {
        assert Fold(a)[i] == Fold(b)[i];
      }
    }
  }

  /** Folding is idempotent: a folded string is its own key. */
  lemma FoldIdempotent(s: string)
    ensures Fold(Fold(s)) == Fold(s)
  {
  }

  /** `s.LastIndexOfAny(cs)`: the last index holding one of `cs`, or -1. */
  function LastIndexOfAny(s: string, cs: set<char>): (r: int)
    ensures -1 <= r < |s|
    ensures r >= 0 ==> s[r] in cs
    ensures forall k :: r < k < |s| ==> s[k] !in cs
  {
    if |s| == 0 then -1
    else if s[|s| - 1] in cs then |s| - 1
    else LastIndexOfAny(s[..|s| - 1], cs)
  }

  /** The directory separators `Path` recognises on Windows. */
  const Separators: set<char> := {'\\', '/'}

  /** `Path.GetFileName`: the part of `path` after its last separator. */
  function FileName(path: string): (name: string)
    ensures IsSuffix(name, path)
    ensures forall k :: 0 <= k < |name| ==> name[k] !in Separators
    ensures name == path || path[|path| - |name| - 1] in Separators
  {
    var i := LastIndexOfAny(path, Separators);
    path[i + 1..]
  }

  /** `Path.GetFileNameWithoutExtension` applied to a bare file name: the
      part before the last '.', or the whole name when it has none. */
  function StripExtension(name: string): (stem: string)
    ensures IsPrefix(stem, name)
    ensures stem == name <==> '.' !in name
    ensures stem != name ==> name[|stem|] == '.' && '.' !in name[|stem| + 1..]
  {
    var i := LastIndexOfAny(name, {'.'});
    if i < 0 then name else name[..i]
  }

  /** The file name of `path` without its extension. */
  function FileStem(path: string): (stem: string)
    ensures IsPrefix(stem, FileName(path))
    ensures forall k :: 0 <= k < |stem| ==> stem[k] !in Separators
    // The last '.' of the file name and everything after it are removed.
    ensures stem == FileName(path) <==> '.' !in FileName(path)
    ensures stem != FileName(path) ==> FileName(path)[|stem|] == '.' && '.' !in FileName(path)[|stem| + 1..]
  {
    StripExtension(FileName(path))
  }
}

=== FILE: wrappers.dfy ===
/** Optional values: the model's stand-in for C# `null`, for a failed OS or
    framework query, and for the single timer slot of the keyboard hook. */
module Wrappers {

  datatype Option<+T> = None | Some(value: T)
}
